=== FILE: README.md ===
# Contact form of the landing site, modelled in Dafny

The site has one piece of behaviour worth stating precisely: its contact form. A visitor
fills in a name, an e-mail address and a message. The browser script checks the three
fields before posting them to `POST /api/contact`. The server validates the body against
its schema and tries to mail it. When mail is not configured or the send fails, it appends
the submission to a local JSON log instead. This project models both halves as pure Dafny
functions and proves what each promises.

- `text.dfy` (`Text`): JavaScript whitespace and `String.prototype.trim`. `trim` and the
  regular-expression class `\s` share one whitespace predicate. `Trim` is proved equal to a
  reference definition (`TrimBounds`): the unique slice whose surroundings are all whitespace.
- `email_shape.dfy` (`EmailShape`): the browser's pattern `^[^\s@]+@[^\s@]+\.[^\s@]+$`.
  It is read three ways: literally as a regular language (`RegexMatches`), structurally
  (`WellShaped`), and as a single-pass matcher (`Scan`). All three are proved to agree.
- `contact_form.dfy` (`ContactForm`): `validate`, with `setError` modelled as a map from each
  field to the text of its error element. Also the start of the submit listener, which returns
  early when validation fails.
- `mailer.dfy` (`Mailer`): `sendEmail`. It covers the configuration gate, the transport
  options, the sender and recipient fallbacks, and the conversion of transport faults to `false`.
- `contact_api.dfy` (`ContactApi`): the `/api/contact` handler as a function. Its inputs are
  the body, the schema's e-mail check, the SMTP environment, the transport outcome, the
  timestamp, the log file and whether the file system accepts the write. Its outputs are the
  reply, the log file afterwards, the terminal stage (Rejected, Delivered, Logged or Failed)
  and the send attempt.
- `consistency.dfy` (`Consistency`): how the browser's checks relate to the server's.
- `wrappers.dfy` (`Wrappers`): `Option` and `Result`.

Inputs the model takes as parameters rather than computing:
- the schema library's e-mail check: `isEmail: string -> bool`;
- whether the mail library's `createTransport` and `sendMail` complete or throw:
  `TransportOutcome` (`Accepted`, `CreateThrew`, `SendThrew`);
- the clock: `at`, an opaque timestamp string;
- the file system: the `LogFile` value and the `writeOk` flag.

Three facts about the code worth stating plainly:
- The server's schema measures untrimmed lengths (`z.string().min(2)`, `min(10)`); only the
  browser trims. `Consistency.ServerAcceptsNameClientRefuses` exhibits the difference.
- The browser's pattern requires the `.` after the `@` to be neither the first nor the last
  character of the domain.
- The 400 reply's `details` is the schema library's issue list. The model keeps one path per
  failing property, in schema order, and a single root path (written "") for a body that is
  not an object.

## Model

| member | source | states |
|---|---|---|
| Text.IsSpace | public/scripts/contact.js:14-31 | the one whitespace set (ECMAScript WhiteSpace and LineTerminator) used by both `trim()` and the pattern's `\s`; its properties are stated by the Trim lemmas below |
| Text.TrimStart | public/scripts/contact.js:14-31 | the leading half of `trim()`; no ensures of its own, see Text.TrimStartIsSuffix |
| Text.TrimEnd | public/scripts/contact.js:14-31 | the trailing half of `trim()`; no ensures of its own, see Text.TrimEndIsPrefix |
| Text.Trim | public/scripts/contact.js:14-31 | `String.prototype.trim`; no ensures of its own, proved equal to the reference slice by Text.TrimMeetsReference and Text.TrimIsReference |
| Text.TrimStartIsSuffix | public/scripts/contact.js:14-31 | removing leading whitespace leaves a suffix of the string, everything removed is whitespace, and the result does not start with whitespace |
| Text.TrimEndIsPrefix | public/scripts/contact.js:14-31 | removing trailing whitespace leaves a prefix of the string, everything removed is whitespace, and the result does not end with whitespace |
| Text.TrimMeetsReference | public/scripts/contact.js:14-31 | `trim()` returns the slice of the string with only whitespace before and after it, starting and ending with a non-whitespace character unless empty |
| Text.TrimIsReference | public/scripts/contact.js:14-31 | the trimmed form is unique: any slice meeting the reference definition is what `trim()` returns |
| Text.TrimIgnoresPadding | public/scripts/contact.js:14-31 | adding whitespace on either side of a string does not change its trimmed form |
| EmailShape.IsAtom | public/scripts/contact.js:22 | the character class `[^\s@]`: neither whitespace nor `@`; see EmailShape.RegexIffWellShaped |
| EmailShape.MatchesAt | public/scripts/contact.js:22-23 | the pattern `^[^\s@]+@[^\s@]+\.[^\s@]+$` at a given split: a non-empty run without whitespace or `@`, the `@`, a second such run, a `.` and a third run; see EmailShape.RegexIffWellShaped |
| EmailShape.RegexMatches | public/scripts/contact.js:22-23 | `emailRegex.test(s)`: some split makes MatchesAt hold, the anchors covering the whole string; see EmailShape.RegexIffWellShaped and EmailShape.Scan |
| EmailShape.RegexIffWellShaped | public/scripts/contact.js:22-23 | the pattern accepts exactly the strings with no whitespace, exactly one `@`, a non-empty part before it, and a `.` after it that is neither first nor last in the domain |
| EmailShape.Scan | public/scripts/contact.js:22-23 | a single left-to-right pass accepts exactly the strings the pattern matches |
| ContactForm.Missing | public/scripts/contact.js:14-31 | JavaScript falsiness of a field value (`!values.name`): absent or empty; used by every field check and by ContactForm.Validate |
| ContactForm.NameValid | public/scripts/contact.js:14 | the name test: present, and at least 2 characters after trimming; see ContactForm.Validate and ContactForm.PadKeepsValidity |
| ContactForm.EmailValid | public/scripts/contact.js:23 | the e-mail test: present, and the trimmed value matches the pattern; see ContactForm.EmailValidIffRegex |
| ContactForm.MessageValid | public/scripts/contact.js:31 | the message test: present, and at least 10 characters after trimming; see ContactForm.Validate and ContactForm.PadKeepsValidity |
| ContactForm.SetError | public/scripts/contact.js:5-8 | writes only the named field's error element, and only if the page has one; every other element keeps its text |
| ContactForm.EmailValidIffRegex | public/scripts/contact.js:22-28 | the e-mail check passes iff the value is present and its trimmed form matches the pattern |
| ContactForm.Validate | public/scripts/contact.js:10-39 | returns true iff trimmed name length ≥ 2, the trimmed e-mail matches the pattern and trimmed message length ≥ 10; each error element shows its field's message exactly when that field fails, and is cleared otherwise |
| ContactForm.SlotDependsOnItsFieldOnly | public/scripts/contact.js:11-38 | no short-circuit: each error element is rewritten on every call from its own field alone, whatever the other fields or its previous text |
| ContactForm.OkIffNoErrorShown | public/scripts/contact.js:11-38 | with all three error elements present, validation succeeds iff every element is left empty |
| ContactForm.PadKeepsValidity | public/scripts/contact.js:14-31 | whitespace padding of a value does not change any of the three field checks |
| ContactForm.ValidateIgnoresPadding | public/scripts/contact.js:14-31 | padding any field with whitespace changes neither the result of `validate` nor the errors shown |
| ContactForm.BeginSubmit | public/scripts/contact.js:50-62 | the status line is cleared; a failed validation returns before the button is disabled or any request is issued; otherwise the button is disabled, relabelled and the untrimmed values are posted |
| ContactForm.AllInvalidReportsEveryField | public/scripts/contact.js:11-52 | when all three fields fail, all three error messages are shown at once and nothing is sent |
| ContactForm.ShortNameRejected | public/scripts/contact.js:14 | the one-character name "J" is refused |
| ContactForm.AddressWithoutAtRejected | public/scripts/contact.js:22-23 | "bad", which has no `@`, is refused |
| ContactForm.ShortMessageRejected | public/scripts/contact.js:31 | the five-character message "short" is refused |
| ContactForm.ScenarioAllFieldsRejected | public/scripts/contact.js:10-52 | name "J", e-mail "bad", message "short" shows the three error messages and issues no request |
| Mailer.Truthy | server.js:41-44 | JavaScript truthiness of an environment variable: set and not empty; see Mailer.Configured, Mailer.Or and Mailer.MissingCredentialDisablesMail |
| Mailer.Or | server.js:62-65 | JavaScript logical or on two environment variables: the first when set and non-empty, else the second; see Mailer.Recipient and Mailer.Sender |
| Mailer.Configured | server.js:41-44 | `hasSMTP`: host, user and password all set and non-empty; its consequences are stated by Mailer.SendEmail and Mailer.MissingCredentialDisablesMail |
| Mailer.SecureFlag | server.js:55 | `SMTP_SECURE === "true"`; see Mailer.SecureOnlyForExactTrue |
| Mailer.Recipient | server.js:62 | the recipient is `CONTACT_TO` when set and non-empty, else `SMTP_USER`; never empty |
| Mailer.Sender | server.js:65 | the sender is `FROM_EMAIL` when set and non-empty, else `SMTP_USER`; never empty |
| Mailer.SendEmail | server.js:40-83 | without host, user and password it returns false and creates no transport; otherwise it passes the configured options to `createTransport`, hands a mail with the fallback addresses to `sendMail` only if `createTransport` did not throw, and returns true exactly when both calls complete |
| Mailer.TransportFaultIsNotSent | server.js:79-82 | a fault in either call of the mail library is caught and reported as not sent |
| Mailer.CreateFaultHandsOverNothing | server.js:52-64 | when `createTransport` throws, `sendMail` is never reached and no mail is handed over |
| Mailer.SentMeansHandedOver | server.js:62-76 | `true` means a mail with a non-empty sender and recipient, carrying the submission unchanged, was handed to `sendMail` |
| Mailer.MissingCredentialDisablesMail | server.js:41-49 | any of `SMTP_HOST`, `SMTP_USER`, `SMTP_PASS` unset or empty means no transport and `false` |
| Mailer.SecureOnlyForExactTrue | server.js:55 | TLS is on only when `SMTP_SECURE` is exactly "true"; "TRUE" and "1" do not enable it |
| ContactApi.NameAccepted | server.js:32 | `z.string().min(2)`: a string of at least 2 untrimmed characters; see ContactApi.Parse |
| ContactApi.EmailAccepted | server.js:33 | `z.string().email()`: a string the abstract e-mail check accepts; see ContactApi.Parse |
| ContactApi.MessageAccepted | server.js:34 | `z.string().min(10)`: a string of at least 10 untrimmed characters; see ContactApi.Parse |
| ContactApi.SchemaAccepts | server.js:31-35 | `ContactSchema`: an object whose three properties all pass; see ContactApi.Parse |
| ContactApi.Issues | server.js:31-35 | the issue paths the schema raises; no ensures of its own, see ContactApi.Parse |
| ContactApi.Parse | server.js:31-35 | the schema accepts iff the body is an object whose name has at least 2 characters, whose e-mail passes the e-mail check and whose message has at least 10; a rejected object lists exactly its failing properties, each once and in declaration order (name, email, message), and a body that is not an object gets one root issue |
| ContactApi.Handle | server.js:88-124 | the `/api/contact` handler; no ensures of its own, see ContactApi.HandleStages, ContactApi.ReplyClassification and ContactApi.LogIsAppendOnly |
| ContactApi.HandleStages | server.js:88-124 | the four terminal outcomes: Rejected (400 with the issues, nothing sent, log untouched), Delivered (200, log untouched), Logged (200, one record appended), Failed (500, log untouched); a send is attempted exactly when the body passed the schema |
| ContactApi.RejectedRequestChangesNothing | server.js:116-119 | a schema failure answers 400 "Datos inválidos" with the issues; no send is attempted and the log is unchanged |
| ContactApi.NonObjectBodyRejected | server.js:89-119 | a body that is not an object (a JSON array, say) is answered 400 with a single root issue; nothing is sent and the log is unchanged |
| ContactApi.Entries | server.js:102-104 | the array the handler reads: `[]` for a missing file, else the stored records; see ContactApi.FirstFallbackCreatesLog and ContactApi.FallbackAppendsOneRecord |
| ContactApi.Stamp | server.js:106 | the record `{ ...parsed, at }`: the three parsed fields and the timestamp; see ContactApi.FallbackAppendsOneRecord |
| ContactApi.FallbackAppendsOneRecord | server.js:102-108 | when the mail is not sent and the log file can be read and written, the log grows by exactly one record at its end, holding the parsed fields and the timestamp; earlier records are unchanged |
| ContactApi.FirstFallbackCreatesLog | server.js:102-104 | a missing log file counts as empty, so the first fallback writes a one-record log |
| ContactApi.DeliveryLeavesLogUntouched | server.js:91-93 | a delivered mail leaves the log file as it was |
| ContactApi.ReplyClassification | server.js:113-123 | every reply is 200, 400 or 500; the 200 reply is `{ok: true}` whichever path was taken; 400 is exactly a schema rejection; 500 is exactly an unsent message whose log could not be read or written |
| ContactApi.LogIsAppendOnly | server.js:93-108 | a readable log stays readable, keeps all its records in place, and gains at most one record, which passed the schema |
| ContactApi.ServeAll | server.js:88-124 | requests handled one after another against one log file; no ensures of its own, see the two Unconfigured lemmas |
| ContactApi.UnconfiguredServeLogsInOrder | server.js:88-113 | without mail configuration, N valid submissions against a readable log, every write succeeding, leave the earlier records followed by exactly N new ones in arrival order |
| ContactApi.UnconfiguredStep | server.js:91-113 | without mail configuration, a valid request against a readable log whose write succeeds is acknowledged and its record is appended |
| ContactApi.ServeFirstLogged | server.js:88-113 | serving a sequence of requests without mail configuration starts by acknowledging the first and extending the log with its record |
| ContactApi.UnconfiguredServeAcknowledgesAll | server.js:113 | without mail configuration, every one of N valid submissions against a readable log, every write succeeding, gets `{ok: true}` |
| ContactApi.ScenarioFirstSubmissionLogged | server.js:88-113 | "Jo" / "jo@x.com" / "Hello there!" with no mail configuration and no log file gets `{ok: true}` and a one-record log |
| ContactApi.ScenarioSecondSubmissionKeepsFirst | server.js:102-108 | the same submission against a one-record log leaves two records, the first unchanged |
| ContactApi.ScenarioAllFieldsRejected | server.js:116-119 | "J" / "bad" / "short" is answered 400 with issues for name, email and message, and nothing is written |
| Consistency.ToBody | public/scripts/contact.js:61 | the body `JSON.stringify(values)` delivers to the server: the same three properties, untrimmed; see Consistency.ClientAcceptedMeetsServerLengths |
| Consistency.ClientAcceptedMeetsServerLengths | public/scripts/contact.js:44-61 | any request the browser issues passes the server's name and message length checks, since the untrimmed values are posted |
| Consistency.ServerAcceptsNameClientRefuses | server.js:32 | the server accepts the name "J ", which the browser refuses after trimming |

## Left out

- Express setup, helmet, cors, body parsers, static serving and `app.listen` (server.js:15-26, 130-132): framework plumbing.
- The mail library: what `createTransport` and `sendMail` do, and the formatting of the subject and text (server.js:52-74). Whether each call completes or throws is the `TransportOutcome` input.
- `Number(process.env.SMTP_PORT || 587)` (server.js:54): numeric coercion of the port is not modelled, and the port is not part of `TransportOptions`.
- File-system calls and JSON (server.js:95-108). The log file is a `LogFile` value. A file that does not hold a JSON array (so parsing or `push` throws) is `Unreadable`. A failing `mkdirSync` or `writeFileSync` is `writeOk = false`; the model then keeps the file unchanged and does not model a partial write. A JSON array holding values other than records (such as `[1]` or hand-edited entries) is not represented: `Stored` holds only records, although the code would push onto any array and answer 200.
- The read-modify-rewrite race between concurrent requests on `messages.json`: requests are handled one after another.
- The schema library's internals (server.js:31-35). The e-mail check is an abstract predicate. Issues carry only the property name, not the library's codes or messages. Non-string property values are treated like absent ones. A body that is not an object is a single `NotAnObject` case, whatever its JSON content.
- `new Date().toISOString()` (server.js:106): the timestamp is an opaque input, so "at or after the request start" is not stated.
- `console.log` and `console.error` calls.
- The rest of the submit listener (public/scripts/contact.js:57-81). The request body (`JSON.stringify(values)`, line 61) is modelled as `BeginSubmit`'s request. Left out are the network call itself, the response handling, `form.reset` and the `finally` block that re-enables the button. These are UI and network.
- public/scripts/main.js: smooth scrolling, the reveal animation and an `alert`-based non-empty check.
- String lengths: JavaScript `.length` counts UTF-16 code units. The model counts Unicode scalar values, so characters outside the Basic Multilingual Plane count once rather than twice.

=== FILE: consistency.dfy ===
/**
  How the browser's checks relate to the server's. The form posts its values untrimmed, and
  the server's schema measures untrimmed lengths, so whatever the browser lets through meets
  the server's length limits; the converse fails.
 */
module Consistency {
  import opened Wrappers
  import opened Text
  import ContactForm
  import ContactApi

  /** The JSON body the form's `fetch` sends for its values. */
  function ToBody(v: ContactForm.FormValues): ContactApi.Body {
    ContactApi.Body(v.name, v.email, v.message)
  }

  /** A request the browser issues always passes the server's name and message length checks. */
  lemma ClientAcceptedMeetsServerLengths(values: ContactForm.FormValues, ui: ContactForm.FormUi)
    requires ContactForm.BeginSubmit(values, ui).request.Some?
    ensures var body := ToBody(ContactForm.BeginSubmit(values, ui).request.value);
      ContactApi.NameAccepted(body.name) && ContactApi.MessageAccepted(body.message)
  {
    var i1, j1 := TrimMeetsReference(values.name.value);
    var i2, j2 := TrimMeetsReference(values.message.value);
  }

  /** The server is looser: it accepts a name the browser refuses, since it does not trim. */
  lemma ServerAcceptsNameClientRefuses()
    ensures ContactApi.NameAccepted(Some("J "))
    ensures !ContactForm.NameValid(Some("J "))
  {
    assert TrimStart("J ") == "J ";
    assert TrimEnd("J ") == "J" by {
      assert "J "[..1] == "J";
    }
  }
}

=== FILE: contact_api.dfy ===
/**
  The `POST /api/contact` handler in server.js, as a pure decision over its inputs.

  The request's effects are made explicit: the schema's e-mail check is the parameter
  `isEmail`, the mail library's behaviour is a `TransportOutcome`, the clock reading is the
  opaque timestamp `at`, and the file `data/messages.json` is a `LogFile` value that the
  handler returns, changed or not. Whether the file system accepts the write is `writeOk`.
 */
module ContactApi {
  import opened Wrappers
  import opened Mailer

  /**
    The parsed request body. `Body` is a JSON object, where `None` is a property that is absent
    or not a string. `NotAnObject` is a body that is not an object at all, such as the JSON
    array `express.json()` also accepts.
   */
  datatype Body = Body(name: Option<string>, email: Option<string>, message: Option<string>) | NotAnObject

  /** The object the schema returns: exactly the three declared properties. */
  datatype Submission = Submission(name: string, email: string, message: string)

  /** One entry of the fallback log: `{ ...parsed, at }`. */
  datatype Record = Record(name: string, email: string, message: string, at: string)

  /** The fallback log file: absent, a JSON array of records, or content `push` cannot extend. */
  datatype LogFile = Absent | Stored(records: seq<Record>) | Unreadable

  datatype ReplyBody = Ack | ErrorBody(error: string, details: Option<seq<string>>)

  datatype Reply = Reply(status: int, body: ReplyBody)

  /** Where one request ends. */
  datatype Stage = Rejected | Delivered | Logged | Failed

  /** The reply, the log file afterwards, the terminal stage and the send attempt, if one was made. */
  datatype Handled = Handled(reply: Reply, log: LogFile, stage: Stage, send: Option<SendReport>)

  /** The path of an issue about the body as a whole: the empty path, written as "". */
  const RootPath := ""

  const InvalidData := "Datos inválidos"
  const InternalError := "Error interno del servidor"

  /** `z.string().min(2)`; lengths are counted in characters. */
  predicate NameAccepted(v: Option<string>) {
    v.Some? && |v.value| >= 2
  }

  /** `z.string().email()`, with the schema library's check left abstract. */
  predicate EmailAccepted(v: Option<string>, isEmail: string -> bool) {
    v.Some? && isEmail(v.value)
  }

  /** `z.string().min(10)`. */
  predicate MessageAccepted(v: Option<string>) {
    v.Some? && |v.value| >= 10
  }

  /** The whole schema accepts the body: an object whose three properties pass. */
  predicate SchemaAccepts(body: Body, isEmail: string -> bool) {
    body.Body? && NameAccepted(body.name) && EmailAccepted(body.email, isEmail) && MessageAccepted(body.message)
  }

  /**
    The paths of the schema's issues: a single root issue for a body that is not an object,
    otherwise one per failing property, in declaration order.
   */
  function Issues(body: Body, isEmail: string -> bool): seq<string> {
    if body.NotAnObject? then [RootPath]
    else
      (if NameAccepted(body.name) then [] else ["name"])
      + (if EmailAccepted(body.email, isEmail) then [] else ["email"])
      + (if MessageAccepted(body.message) then [] else ["message"])
  }

  /** The position of a property path in the schema's declaration order; 3 for any other path. */
  function Rank(path: string): nat {
    if path == "name" then 0 else if path == "email" then 1 else if path == "message" then 2 else 3
  }

  /** `ContactSchema.parse(req.body)`: the parsed submission, or the issues it raised. */
  function Parse(body: Body, isEmail: string -> bool): (r: Result<Submission, seq<string>>)
    ensures r.Success? <==> SchemaAccepts(body, isEmail)
    ensures r.Success? ==> body == Body(Some(r.value.name), Some(r.value.email), Some(r.value.message))
    ensures r.Failure? ==> 1 <= |r.error| <= 3
    ensures body.NotAnObject? ==> r.Failure? && r.error == [RootPath]
    ensures r.Failure? && body.Body? ==> ("name" in r.error <==> !NameAccepted(body.name))
    ensures r.Failure? && body.Body? ==> ("email" in r.error <==> !EmailAccepted(body.email, isEmail))
    ensures r.Failure? && body.Body? ==> ("message" in r.error <==> !MessageAccepted(body.message))
    ensures r.Failure? && body.Body? ==> RootPath !in r.error
    ensures r.Failure? && body.Body? ==> forall k :: 0 <= k < |r.error| ==> Rank(r.error[k]) < 3
    ensures r.Failure? && body.Body? ==> forall a, b :: 0 <= a < b < |r.error| ==> Rank(r.error[a]) < Rank(r.error[b])
  {
    var issues := Issues(body, isEmail);
    if issues == [] then
      Success(Submission(body.name.value, body.email.value, body.message.value))
    else
      Failure(issues)
  }

  /** The records a log file holds as far as the handler is concerned: a missing file is `[]`. */
  function Entries(file: LogFile): seq<Record>
    requires !file.Unreadable?
  {
    if file.Absent? then [] else file.records
  }

  function Stamp(s: Submission, at: string): Record {
    Record(s.name, s.email, s.message, at)
  }

  /** The reply every success path sends, whichever way the message was kept. */
  const Acknowledged := Reply(200, Ack)
  const ServerFault := Reply(500, ErrorBody(InternalError, None))

  /** The handler for one request. */
  function Handle(body: Body, isEmail: string -> bool, env: SmtpEnv, outcome: TransportOutcome,
                  at: string, file: LogFile, writeOk: bool): Handled
  {
    match Parse(body, isEmail)
    case Failure(issues) =>
      Handled(Reply(400, ErrorBody(InvalidData, Some(issues))), file, Rejected, None)
    case Success(s) =>
      var send := SendEmail(env, s.name, s.email, s.message, outcome);
      if send.sent then
        Handled(Acknowledged, file, Delivered, Some(send))
      else if file.Unreadable? || !writeOk then
        Handled(ServerFault, file, Failed, Some(send))
      else
        Handled(Acknowledged, Stored(Entries(file) + [Stamp(s, at)]), Logged, Some(send))
  }

  /**
    The four terminal outcomes of a request: Rejected (400 with the issues, nothing sent, log
    untouched), Delivered (200, log untouched), Logged (200, one record appended) and Failed
    (500, log untouched). A send is attempted exactly when the body passed the schema.
   */
  lemma HandleStages(body: Body, isEmail: string -> bool, env: SmtpEnv, outcome: TransportOutcome,
                     at: string, file: LogFile, writeOk: bool)
    ensures var h := Handle(body, isEmail, env, outcome, at, file, writeOk);
      && (h.stage == Rejected <==> Parse(body, isEmail).Failure?)
      && (h.stage == Rejected ==>
            h.reply == Reply(400, ErrorBody(InvalidData, Some(Parse(body, isEmail).error))) && h.log == file && h.send.None?)
      && (h.stage != Rejected ==> h.send.Some? && h.send.value.sent == (Configured(env) && outcome == Accepted))
      && (h.stage == Delivered ==> h.reply == Acknowledged && h.log == file)
      && (h.stage == Logged ==>
            && h.reply == Acknowledged
            && !file.Unreadable?
            && h.log == Stored(Entries(file) + [Stamp(Parse(body, isEmail).value, at)]))
      && (h.stage == Failed ==> h.reply == ServerFault && h.log == file)
  {
  }

  /** A body the schema rejects gets 400 with its issues; nothing is sent and the log is untouched. */
  lemma RejectedRequestChangesNothing(body: Body, isEmail: string -> bool, env: SmtpEnv, outcome: TransportOutcome,
                                      at: string, file: LogFile, writeOk: bool)
    requires !SchemaAccepts(body, isEmail)
    ensures var h := Handle(body, isEmail, env, outcome, at, file, writeOk);
      && h.reply.status == 400
      && h.reply.body == ErrorBody(InvalidData, Some(Issues(body, isEmail)))
      && h.send.None?
      && h.log == file
  {
  }

  /** A body that is not an object gets 400 with one root issue; nothing is sent and the log is untouched. */
  lemma NonObjectBodyRejected(isEmail: string -> bool, env: SmtpEnv, outcome: TransportOutcome,
                              at: string, file: LogFile, writeOk: bool)
    ensures var h := Handle(NotAnObject, isEmail, env, outcome, at, file, writeOk);
      && h.stage == Rejected
      && h.reply == Reply(400, ErrorBody(InvalidData, Some([RootPath])))
      && h.send.None?
      && h.log == file
  {
  }

  /**
    When the mail is not sent and the file can be read and written, the log grows by exactly
    one record at its end, built from the parsed fields and the timestamp; earlier records keep
    their places.
   */
  lemma FallbackAppendsOneRecord(body: Body, isEmail: string -> bool, env: SmtpEnv, outcome: TransportOutcome,
                                 at: string, file: LogFile, writeOk: bool)
    requires Parse(body, isEmail).Success?
    requires !(Configured(env) && outcome == Accepted)
    requires !file.Unreadable? && writeOk
    ensures var h := Handle(body, isEmail, env, outcome, at, file, writeOk);
      && h.stage == Logged
      && h.reply == Acknowledged
      && h.log.Stored?
      && |h.log.records| == |Entries(file)| + 1
      && (forall k :: 0 <= k < |Entries(file)| ==> h.log.records[k] == Entries(file)[k])
      && h.log.records[|Entries(file)|] == Record(body.name.value, body.email.value, body.message.value, at)
  {
  }

  /** A missing log file is read as empty, so the first fallback writes a one-record log. */
  lemma FirstFallbackCreatesLog(body: Body, isEmail: string -> bool, env: SmtpEnv, outcome: TransportOutcome, at: string)
    requires Parse(body, isEmail).Success?
    requires !Configured(env)
    ensures Handle(body, isEmail, env, outcome, at, Absent, true).log
         == Stored([Record(body.name.value, body.email.value, body.message.value, at)])
  {
  }

  /** A delivered mail leaves the log file exactly as it was, even an absent or unreadable one. */
  lemma DeliveryLeavesLogUntouched(body: Body, isEmail: string -> bool, env: SmtpEnv,
                                   at: string, file: LogFile, writeOk: bool)
    requires Parse(body, isEmail).Success?
    requires Configured(env)
    ensures var h := Handle(body, isEmail, env, Accepted, at, file, writeOk);
      h.stage == Delivered && h.reply == Acknowledged && h.log == file
  {
  }

  /**
    Every request gets 200, 400 or 500. The 200 reply is the same whether the message was mailed
    or logged; 400 is exactly a schema rejection; 500 is exactly an undelivered message whose log
    file could not be read or written.
   */
  lemma ReplyClassification(body: Body, isEmail: string -> bool, env: SmtpEnv, outcome: TransportOutcome,
                            at: string, file: LogFile, writeOk: bool)
    ensures var h := Handle(body, isEmail, env, outcome, at, file, writeOk);
      var parsed := Parse(body, isEmail).Success?;
      var sent := Configured(env) && outcome == Accepted;
      && h.reply.status in {200, 400, 500}
      && (h.reply.status == 200 <==> parsed && (sent || (!file.Unreadable? && writeOk)))
      && (h.reply.status == 400 <==> !parsed)
      && (h.reply.status == 500 <==> parsed && !sent && (file.Unreadable? || !writeOk))
      && (h.reply.status == 200 ==> h.reply == Acknowledged)
      && (h.reply.status == 500 ==> h.reply.body == ErrorBody(InternalError, None))
  {
  }

  /** `xs` is an initial segment of `ys`. */
  predicate IsPrefix(xs: seq<Record>, ys: seq<Record>) {
    |xs| <= |ys| && ys[..|xs|] == xs
  }

  /**
    The log is append-only: a readable log stays readable, keeps every record it had, gains
    at most one, and only gains one that passed the schema.
   */
  lemma LogIsAppendOnly(body: Body, isEmail: string -> bool, env: SmtpEnv, outcome: TransportOutcome,
                        at: string, file: LogFile, writeOk: bool)
    requires !file.Unreadable?
    ensures var h := Handle(body, isEmail, env, outcome, at, file, writeOk);
      && !h.log.Unreadable?
      && IsPrefix(Entries(file), Entries(h.log))
      && |Entries(h.log)| <= |Entries(file)| + 1
      && (|Entries(h.log)| == |Entries(file)| + 1 ==>
            var r := Entries(h.log)[|Entries(file)|];
            NameAccepted(Some(r.name)) && EmailAccepted(Some(r.email), isEmail) && MessageAccepted(Some(r.message)))
  {
    var h := Handle(body, isEmail, env, outcome, at, file, writeOk);
    if h.stage == Logged {
      assert Entries(h.log)[..|Entries(file)|] == Entries(file);
    } else {
      assert Entries(h.log)[..|Entries(file)|] == Entries(file);
    }
  }

  /** One request as the server sees it: its body, the mail library's behaviour, the clock, and the file system. */
  datatype Request = Request(body: Body, outcome: TransportOutcome, at: string, writeOk: bool)

  /** Requests handled one after another against the same log file; returns the replies and the final file. */
  function ServeAll(reqs: seq<Request>, isEmail: string -> bool, env: SmtpEnv, file: LogFile): (seq<Reply>, LogFile)
    decreases |reqs|
  {
    if |reqs| == 0 then ([], file)
    else
      var r := reqs[0];
      var h := Handle(r.body, isEmail, env, r.outcome, r.at, file, r.writeOk);
      var (replies, last) := ServeAll(reqs[1..], isEmail, env, h.log);
      ([h.reply] + replies, last)
  }

  /** The record a schema-valid request is logged as. */
  function RecordOf(r: Request, isEmail: string -> bool): Record
    requires SchemaAccepts(r.body, isEmail)
  {
    Record(r.body.name.value, r.body.email.value, r.body.message.value, r.at)
  }

  /** The records a sequence of schema-valid requests produces, in arrival order. */
  function StampAll(reqs: seq<Request>, isEmail: string -> bool): seq<Record>
    requires forall k :: 0 <= k < |reqs| ==> SchemaAccepts(reqs[k].body, isEmail)
    decreases |reqs|
  {
    if |reqs| == 0 then [] else [RecordOf(reqs[0], isEmail)] + StampAll(reqs[1..], isEmail)
  }

  /** One valid request without mail configuration: acknowledged, and its record appended. */
  lemma UnconfiguredStep(r: Request, isEmail: string -> bool, env: SmtpEnv, file: LogFile)
    requires !Configured(env) && !file.Unreadable?
    requires SchemaAccepts(r.body, isEmail) && r.writeOk
    ensures var h := Handle(r.body, isEmail, env, r.outcome, r.at, file, r.writeOk);
      h.reply == Acknowledged && h.log == Stored(Entries(file) + [RecordOf(r, isEmail)])
  {
  }

  /** Without mail configuration, serving a valid first request acknowledges it and serves the rest against the extended log. */
  lemma ServeFirstLogged(reqs: seq<Request>, isEmail: string -> bool, env: SmtpEnv, file: LogFile)
    requires |reqs| > 0
    requires !Configured(env) && !file.Unreadable?
    requires SchemaAccepts(reqs[0].body, isEmail) && reqs[0].writeOk
    ensures var next := Stored(Entries(file) + [RecordOf(reqs[0], isEmail)]);
      ServeAll(reqs, isEmail, env, file)
      == ([Acknowledged] + ServeAll(reqs[1..], isEmail, env, next).0, ServeAll(reqs[1..], isEmail, env, next).1)
  {
    UnconfiguredStep(reqs[0], isEmail, env, file);
  }

  /**
    Concatenation is associative. This is a proof step, not a property of the handler: stated on
    its own it keeps the induction in UnconfiguredServeLogsInOrder cheap for the solver.
   */
  lemma AppendAssoc(a: seq<Record>, b: seq<Record>, c: seq<Record>)
    ensures (a + b) + c == a + (b + c)
  {
  }

  /**
    Without mail configuration, N valid submissions against a readable log leave the prior
    records followed by exactly N new ones, in submission order.
   */
  lemma {:induction false} UnconfiguredServeLogsInOrder(reqs: seq<Request>, isEmail: string -> bool, env: SmtpEnv, file: LogFile)
    requires !Configured(env)
    requires !file.Unreadable?
    requires forall k :: 0 <= k < |reqs| ==> SchemaAccepts(reqs[k].body, isEmail) && reqs[k].writeOk
    ensures !ServeAll(reqs, isEmail, env, file).1.Unreadable?
    ensures Entries(ServeAll(reqs, isEmail, env, file).1) == Entries(file) + StampAll(reqs, isEmail)
    ensures |reqs| > 0 ==> ServeAll(reqs, isEmail, env, file).1.Stored?
    decreases |reqs|
  {
    if |reqs| == 0 {
      assert Entries(file) + [] == Entries(file);
    } else {
      var stamp := RecordOf(reqs[0], isEmail);
      var next := Stored(Entries(file) + [stamp]);
      var tail := StampAll(reqs[1..], isEmail);
      ServeFirstLogged(reqs, isEmail, env, file);
      UnconfiguredServeLogsInOrder(reqs[1..], isEmail, env, next);
      var last := ServeAll(reqs[1..], isEmail, env, next).1;
      assert ServeAll(reqs, isEmail, env, file).1 == last;
      assert Entries(last) == (Entries(file) + [stamp]) + tail;
      assert StampAll(reqs, isEmail) == [stamp] + tail;
      AppendAssoc(Entries(file), [stamp], tail);
    }
  }

  /** Without mail configuration, every one of N valid submissions against a readable log gets `{ok: true}`. */
  lemma {:induction false} UnconfiguredServeAcknowledgesAll(reqs: seq<Request>, isEmail: string -> bool, env: SmtpEnv, file: LogFile)
    requires !Configured(env)
    requires !file.Unreadable?
    requires forall k :: 0 <= k < |reqs| ==> SchemaAccepts(reqs[k].body, isEmail) && reqs[k].writeOk
    ensures |ServeAll(reqs, isEmail, env, file).0| == |reqs|
    ensures forall k :: 0 <= k < |reqs| ==> ServeAll(reqs, isEmail, env, file).0[k] == Acknowledged
    decreases |reqs|
  {
    if |reqs| > 0 {
      var r := reqs[0];
      ServeFirstLogged(reqs, isEmail, env, file);
      var next := Stored(Entries(file) + [RecordOf(r, isEmail)]);
      UnconfiguredServeAcknowledgesAll(reqs[1..], isEmail, env, next);
    }
  }

  /** No SMTP variable is set. */
  const NoMailEnv := SmtpEnv(None, None, None, None, None, None, None)

  /** Scenario: a valid submission with no mail configuration and no log file yet. */
  lemma ScenarioFirstSubmissionLogged(isEmail: string -> bool, outcome: TransportOutcome, at: string)
    requires isEmail("jo@x.com")
    ensures var h := Handle(Body(Some("Jo"), Some("jo@x.com"), Some("Hello there!")), isEmail, NoMailEnv, outcome, at, Absent, true);
      && h.reply == Acknowledged
      && h.log == Stored([Record("Jo", "jo@x.com", "Hello there!", at)])
  {
  }

  /** Scenario: a second valid submission against a one-record log keeps the first record and adds the second after it. */
  lemma ScenarioSecondSubmissionKeepsFirst(isEmail: string -> bool, outcome: TransportOutcome, at: string, first: Record)
    requires isEmail("jo@x.com")
    ensures var h := Handle(Body(Some("Jo"), Some("jo@x.com"), Some("Hello there!")), isEmail, NoMailEnv, outcome, at, Stored([first]), true);
      && h.reply == Acknowledged
      && h.log == Stored([first, Record("Jo", "jo@x.com", "Hello there!", at)])
  {
  }

  /** Scenario: name "J", email "bad", message "short" is refused with all three issues and nothing written. */
  lemma ScenarioAllFieldsRejected(isEmail: string -> bool, env: SmtpEnv, outcome: TransportOutcome, at: string, file: LogFile, writeOk: bool)
    requires !isEmail("bad")
    ensures var h := Handle(Body(Some("J"), Some("bad"), Some("short")), isEmail, env, outcome, at, file, writeOk);
      && h.reply == Reply(400, ErrorBody(InvalidData, Some(["name", "email", "message"])))
      && h.log == file
      && h.send.None?
  {
    var body := Body(Some("J"), Some("bad"), Some("short"));
    assert !NameAccepted(body.name) && !EmailAccepted(body.email, isEmail) && !MessageAccepted(body.message);
    assert ["name"] + ["email"] + ["message"] == ["name", "email", "message"];
  }
}

=== FILE: contact_form.dfy ===
/**
  The browser-side contact form (public/scripts/contact.js): the `validate` function and
  the start of the submit handler, up to the point where the request is issued.

  The page's error elements are modelled as a map from field to the text they show; a
  field without an error element on the page is simply not a key of the map, which is how
  `setError` behaves when `document.querySelector` finds nothing.
 */
module ContactForm {
  import opened Wrappers
  import opened Text
  import opened EmailShape

  datatype Field = Name | Email | Message

  const NameError := "Ingresá tu nombre (mínimo 2 caracteres)."
  const EmailError := "Ingresá un email válido."
  const MessageError := "Escribí un mensaje (mínimo 10 caracteres)."

  /** The `values` object read from the form; `None` is an absent property. */
  datatype FormValues = FormValues(name: Option<string>, email: Option<string>, message: Option<string>)

  /** The text content of each error element present on the page. */
  type ErrorSlots = map<Field, string>

  /** The result of `validate`: its boolean, and the error elements after the call. */
  datatype Validation = Validation(ok: bool, errors: ErrorSlots)

  /** JavaScript falsiness of a string-valued property: absent, or the empty string. */
  predicate Missing(v: Option<string>) {
    v.None? || v.value == ""
  }

  predicate NameValid(v: Option<string>) {
    !Missing(v) && |Trim(v.value)| >= 2
  }

  predicate EmailValid(v: Option<string>) {
    !Missing(v) && WellShaped(Trim(v.value))
  }

  predicate MessageValid(v: Option<string>) {
    !Missing(v) && |Trim(v.value)| >= 10
  }

  /** The e-mail check accepts exactly the trimmed values the pattern matches. */
  lemma EmailValidIffRegex(v: Option<string>)
    ensures EmailValid(v) <==> !Missing(v) && RegexMatches(Trim(v.value))
  {
    if v.Some? {
      RegexIffWellShaped(Trim(v.value));
    }
  }

  /** `setError(field, message)`: writes the field's error element if the page has one. */
  function SetError(slots: ErrorSlots, f: Field, message: string): (r: ErrorSlots)
    ensures r.Keys == slots.Keys
    ensures f in slots ==> r[f] == message
    ensures forall g :: g in slots && g != f ==> r[g] == slots[g]
  {
    if f in slots then slots[f := message] else slots
  }

  /** `validate(values)`: checks every field in turn, writing each field's error element. */
  function Validate(values: FormValues, slots: ErrorSlots): (r: Validation)
    ensures r.errors.Keys == slots.Keys
    ensures Name in slots ==>
      r.errors[Name] == if Missing(values.name) || |Trim(values.name.value)| < 2 then NameError else ""
    ensures Email in slots ==>
      r.errors[Email] == if Missing(values.email) || !RegexMatches(Trim(values.email.value)) then EmailError else ""
    ensures Message in slots ==>
      r.errors[Message] == if Missing(values.message) || |Trim(values.message.value)| < 10 then MessageError else ""
    ensures r.ok <==>
      && !Missing(values.name) && |Trim(values.name.value)| >= 2
      && !Missing(values.email) && RegexMatches(Trim(values.email.value))
      && !Missing(values.message) && |Trim(values.message.value)| >= 10
  {
    EmailValidIffRegex(values.email);
    var nameOk := NameValid(values.name);
    var s1 := SetError(slots, Name, if nameOk then "" else NameError);
    var emailOk := EmailValid(values.email);
    var s2 := SetError(s1, Email, if emailOk then "" else EmailError);
    var messageOk := MessageValid(values.message);
    var s3 := SetError(s2, Message, if messageOk then "" else MessageError);
    Validation(nameOk && emailOk && messageOk, s3)
  }

  /** The value `validate` reads for a field. */
  function FieldValue(values: FormValues, f: Field): Option<string> {
    match f
    case Name => values.name
    case Email => values.email
    case Message => values.message
  }

  /**
    No short-circuit: every error element present is rewritten on every call, from its own
    field alone. Neither the other fields nor the element's previous text matter.
   */
  lemma SlotDependsOnItsFieldOnly(a: FormValues, b: FormValues, sa: ErrorSlots, sb: ErrorSlots, f: Field)
    requires f in sa && f in sb
    requires FieldValue(a, f) == FieldValue(b, f)
    ensures Validate(a, sa).errors[f] == Validate(b, sb).errors[f]
  {
    match f
    case Name =>
    case Email => EmailValidIffRegex(a.email);
    case Message =>
  }

  /** With all three error elements on the page, `validate` succeeds iff it leaves every one empty. */
  lemma OkIffNoErrorShown(values: FormValues, slots: ErrorSlots)
    requires slots.Keys == {Name, Email, Message}
    ensures var r := Validate(values, slots);
      r.ok <==> r.errors[Name] == "" && r.errors[Email] == "" && r.errors[Message] == ""
  {
    var r := Validate(values, slots);
    assert Name in slots && Email in slots && Message in slots;
    assert r.errors[Name] == "" <==> NameValid(values.name);
    assert r.errors[Email] == "" <==> EmailValid(values.email);
    assert r.errors[Message] == "" <==> MessageValid(values.message);
  }

  /** A property padded with whitespace on both sides; an absent property stays absent. */
  function Pad(v: Option<string>, pre: string, post: string): Option<string> {
    match v
    case None => None
    case Some(s) => Some(pre + s + post)
  }

  lemma PadKeepsValidity(v: Option<string>, pre: string, post: string)
    requires AllSpace(pre) && AllSpace(post)
    ensures NameValid(Pad(v, pre, post)) == NameValid(v)
    ensures EmailValid(Pad(v, pre, post)) == EmailValid(v)
    ensures MessageValid(Pad(v, pre, post)) == MessageValid(v)
  {
    if v.Some? {
      TrimIgnoresPadding(pre, v.value, post);
      assert Trim("") == "";
      assert !WellShaped("");
    }
  }

  /** `validate` trims every field first, so surrounding whitespace changes neither its result nor the errors shown. */
  lemma ValidateIgnoresPadding(values: FormValues, slots: ErrorSlots,
                               namePre: string, namePost: string,
                               emailPre: string, emailPost: string,
                               messagePre: string, messagePost: string)
    requires AllSpace(namePre) && AllSpace(namePost)
    requires AllSpace(emailPre) && AllSpace(emailPost)
    requires AllSpace(messagePre) && AllSpace(messagePost)
    ensures Validate(FormValues(Pad(values.name, namePre, namePost),
                                Pad(values.email, emailPre, emailPost),
                                Pad(values.message, messagePre, messagePost)), slots)
            == Validate(values, slots)
  {
    PadKeepsValidity(values.name, namePre, namePost);
    PadKeepsValidity(values.email, emailPre, emailPost);
    PadKeepsValidity(values.message, messagePre, messagePost);
  }

  const Sending := "Enviando…"

  /** The parts of the page the submit handler touches before its request. */
  datatype FormUi = FormUi(status: string, submitDisabled: bool, submitLabel: string, errors: ErrorSlots)

  /** The page after the synchronous part of the handler, and the request it issues, if any. */
  datatype SubmitStart = SubmitStart(ui: FormUi, request: Option<FormValues>)

  /**
    The submit listener up to `fetch`: the status line is cleared, `validate` runs, and a
    failed validation returns before the button is touched or any request is made.
   */
  function BeginSubmit(values: FormValues, ui: FormUi): (r: SubmitStart)
    ensures r.ui.status == ""
    ensures r.ui.errors == Validate(values, ui.errors).errors
    ensures r.request.Some? <==> NameValid(values.name) && EmailValid(values.email) && MessageValid(values.message)
    ensures r.request.None? ==> r.ui.submitDisabled == ui.submitDisabled && r.ui.submitLabel == ui.submitLabel
    ensures r.request.Some? ==> r.request.value == values && r.ui.submitDisabled && r.ui.submitLabel == Sending
  {
    var v := Validate(values, ui.errors);
    var cleared := ui.(status := "", errors := v.errors);
    if !v.ok then
      SubmitStart(cleared, None)
    else
      SubmitStart(cleared.(submitDisabled := true, submitLabel := Sending), Some(values))
  }

  /** Every failing field is reported at once, and nothing is sent. */
  lemma AllInvalidReportsEveryField(values: FormValues, ui: FormUi)
    requires ui.errors.Keys == {Name, Email, Message}
    requires !NameValid(values.name) && !EmailValid(values.email) && !MessageValid(values.message)
    ensures var r := BeginSubmit(values, ui);
      && r.request == None
      && r.ui.errors == map[Name := NameError, Email := EmailError, Message := MessageError]
  {
    EmailValidIffRegex(values.email);
    var r := BeginSubmit(values, ui);
    assert r.ui.errors.Keys == {Name, Email, Message};
  }

  lemma ShortNameRejected()
    ensures !NameValid(Some("J"))
  {
    assert TrimStart("J") == "J";
    assert TrimEnd("J") == "J";
  }

  lemma AddressWithoutAtRejected()
    ensures !EmailValid(Some("bad"))
  {
    assert TrimStart("bad") == "bad";
    assert TrimEnd("bad") == "bad";
    assert "bad"[..2] == "ba";
    assert "ba"[..1] == "b";
    assert "b"[..0] == "";
  }

  lemma ShortMessageRejected()
    ensures !MessageValid(Some("short"))
  {
    assert |Trim("short")| <= 5;
  }

  /** Scenario: name "J", email "bad", message "short" shows all three errors and sends nothing. */
  lemma ScenarioAllFieldsRejected(ui: FormUi)
    requires ui.errors.Keys == {Name, Email, Message}
    ensures var r := BeginSubmit(FormValues(Some("J"), Some("bad"), Some("short")), ui);
      && r.request == None
      && r.ui.errors == map[Name := NameError, Email := EmailError, Message := MessageError]
  {
    ShortNameRejected();
    AddressWithoutAtRejected();
    ShortMessageRejected();
    AllInvalidReportsEveryField(FormValues(Some("J"), Some("bad"), Some("short")), ui);
  }
}

=== FILE: email_shape.dfy ===
/**
  The client's e-mail pattern `^[^\s@]+@[^\s@]+\.[^\s@]+$` (public/scripts/contact.js).

  Three views of the same language, proved to agree:
  - `RegexMatches`: the pattern read literally, as a concatenation of three non-empty runs of
    the class `[^\s@]` separated by a literal `@` and a literal `.`;
  - `WellShaped`: the structural reading (no whitespace, exactly one `@`, a non-empty part
    before it, and a `.` in the part after it that is neither its first nor its last character);
  - `Scan`: a single left-to-right pass over the characters.
 */
module EmailShape {
  import opened Text

  /** A character of the class `[^\s@]`. */
  predicate IsAtom(c: char) {
    !IsSpace(c) && c != '@'
  }

  predicate AllAtom(s: string) {
    forall k :: 0 <= k < |s| ==> IsAtom(s[k])
  }

  /** The pattern matches `s` with its `@` at index `i` and its literal `.` at index `j`. */
  ghost predicate MatchesAt(s: string, i: int, j: int) {
    && 0 < i && i + 1 < j && j + 1 < |s|
    && AllAtom(s[..i]) && s[i] == '@'
    && AllAtom(s[i + 1..j]) && s[j] == '.'
    && AllAtom(s[j + 1..])
  }

  /** `emailRegex.test(s)`: the anchored pattern matches the whole of `s`. */
  ghost predicate RegexMatches(s: string) {
    exists i, j :: MatchesAt(s, i, j)
  }

  /** Number of occurrences of `c` in `s`. */
  function Count(s: string, c: char): nat {
    if |s| == 0 then 0 else Count(s[..|s| - 1], c) + (if s[|s| - 1] == c then 1 else 0)
  }

  /** Index of the first occurrence of `c` in `s`, or `|s|` when there is none. */
  function IndexOf(s: string, c: char): (r: nat)
    ensures r <= |s|
    ensures r < |s| ==> s[r] == c
    ensures forall k :: 0 <= k < r ==> s[k] != c
  {
    if |s| == 0 then 0 else if s[0] == c then 0 else 1 + IndexOf(s[1..], c)
  }

  /** `d` has a `.` that is neither its first nor its last character. */
  predicate HasInnerDot(d: string) {
    exists p :: 0 < p < |d| - 1 && d[p] == '.'
  }

  /** The structural characterisation of the pattern. */
  predicate WellShaped(s: string) {
    && NoSpace(s)
    && Count(s, '@') == 1
    && var at := IndexOf(s, '@');
       0 < at < |s| && HasInnerDot(s[at + 1..])
  }

  lemma {:induction false} CountConcat(a: string, b: string, c: char)
    ensures Count(a + b, c) == Count(a, c) + Count(b, c)
    decreases |b|
  {
    if |b| == 0 {
      assert a + b == a;
    } else {
      assert (a + b)[..|a + b| - 1] == a + b[..|b| - 1];
      CountConcat(a, b[..|b| - 1], c);
    }
  }

  lemma {:induction false} CountZero(s: string, c: char)
    ensures Count(s, c) == 0 <==> forall k :: 0 <= k < |s| ==> s[k] != c
    decreases |s|
  {
    if |s| > 0 {
      CountZero(s[..|s| - 1], c);
      if Count(s, c) == 0 {
        forall k | 0 <= k < |s| ensures s[k] != c {
          if k < |s| - 1 { assert s[..|s| - 1][k] == s[k]; }
        }
      } else if s[|s| - 1] != c {
        var k :| 0 <= k < |s| - 1 && s[..|s| - 1][k] == c;
        assert s[k] == c;
      }
    }
  }

  /** With `c` at index `i`, there is exactly one `c` iff no other index holds one. */
  lemma CountOne(s: string, c: char, i: int)
    requires 0 <= i < |s| && s[i] == c
    ensures Count(s, c) == 1 <==> forall k :: 0 <= k < |s| && k != i ==> s[k] != c
  {
    var pre, post := s[..i], s[i + 1..];
    assert s == pre + [c] + post;
    CountConcat(pre + [c], post, c);
    CountConcat(pre, [c], c);
    assert Count([c], c) == 1 by { assert [c][..0] == []; }
    CountZero(pre, c);
    CountZero(post, c);
    if Count(s, c) == 1 {
      forall k | 0 <= k < |s| && k != i ensures s[k] != c {
        if k < i { assert pre[k] == s[k]; } else { assert post[k - i - 1] == s[k]; }
      }
    } else {
      if Count(pre, c) > 0 {
        var k :| 0 <= k < |pre| && pre[k] == c;
        assert s[k] == c;
      } else {
        var k :| 0 <= k < |post| && post[k] == c;
        assert s[i + 1 + k] == c;
      }
    }
  }

  /** A pattern match puts its `@` at the only `@` of the string. */
  lemma MatchIsWellShaped(s: string, i: int, j: int)
    requires MatchesAt(s, i, j)
    ensures WellShaped(s)
  {
    forall k | 0 <= k < |s| ensures !IsSpace(s[k]) && (k != i ==> s[k] != '@') {
      if k < i {
        assert s[..i][k] == s[k];
      } else if i < k < j {
        assert s[i + 1..j][k - i - 1] == s[k];
      } else if j < k {
        assert s[j + 1..][k - j - 1] == s[k];
      }
    }
    CountOne(s, '@', i);
    assert IndexOf(s, '@') == i;
    var d := s[i + 1..];
    assert d[j - i - 1] == '.';
  }

  /** The structural reading picks out a split at which the pattern matches. */
  lemma WellShapedMatches(s: string) returns (i: int, j: int)
    requires WellShaped(s)
    ensures MatchesAt(s, i, j)
  {
    i := IndexOf(s, '@');
    var d := s[i + 1..];
    var p :| 0 < p < |d| - 1 && d[p] == '.';
    j := i + 1 + p;
    CountOne(s, '@', i);
    assert AllAtom(s[..i]) by {
      forall k | 0 <= k < i ensures IsAtom(s[..i][k]) { assert s[..i][k] == s[k]; }
    }
    var domain, tld := s[i + 1..j], s[j + 1..];
    assert AllAtom(domain) by {
      forall k | 0 <= k < |domain| ensures IsAtom(domain[k]) { assert domain[k] == s[i + 1 + k]; }
    }
    assert AllAtom(tld) by {
      forall k | 0 <= k < |tld| ensures IsAtom(tld[k]) { assert tld[k] == s[j + 1 + k]; }
    }
  }

  /** The pattern and its structural characterisation accept the same strings. */
  lemma RegexIffWellShaped(s: string)
    ensures RegexMatches(s) <==> WellShaped(s)
  {
    if RegexMatches(s) {
      var i, j :| MatchesAt(s, i, j);
      MatchIsWellShaped(s, i, j);
    }
    if WellShaped(s) {
      var i, j := WellShapedMatches(s);
    }
  }

  /** A direct single-pass matcher for the pattern. */
  method Scan(s: string) returns (ok: bool)
    ensures ok <==> WellShaped(s)
    ensures ok <==> RegexMatches(s)
  {
    var k := 0;
    var ats := 0;        // '@' characters seen so far
    var at := |s|;       // index of the first '@', once one has been seen
    var spaceFree := true;
    var dot := false;    // a '.' after the first '@' + 1, followed by at least one character
    while k < |s|
      invariant 0 <= k <= |s|
      invariant ats == Count(s[..k], '@')
      invariant spaceFree <==> NoSpace(s[..k])
      invariant ats == 0 ==> forall q :: 0 <= q < k ==> s[q] != '@'
      invariant ats > 0 ==> at < k && at == IndexOf(s, '@')
      invariant dot <==> ats > 0 && exists p :: at + 1 < p < k - 1 && s[p] == '.'
    {
      var c := s[k];
      if ats > 0 && at + 1 < k - 1 && s[k - 1] == '.' {
        dot := true;
      }
      if c == '@' {
        if ats == 0 {
          at := k;
        }
        ats := ats + 1;
      }
      if IsSpace(c) {
        spaceFree := false;
      }
      assert s[..k + 1][..k] == s[..k];
      k := k + 1;
    }
    assert s[..k] == s;
    ok := spaceFree && ats == 1 && 0 < at && dot;
    if ats == 1 {
      var d := s[at + 1..];
      if dot {
        var p :| at + 1 < p < |s| - 1 && s[p] == '.';
        assert d[p - at - 1] == '.';
      }
      if HasInnerDot(d) {
        var p :| 0 < p < |d| - 1 && d[p] == '.';
        assert s[at + 1 + p] == '.';
      }
    }
    RegexIffWellShaped(s);
  }
}

=== FILE: mailer.dfy ===
/**
  `sendEmail` in server.js: the configuration gate, the transport options, and the choice of
  sender and recipient. The mail library is not modelled; whether its two calls,
  `createTransport` and `sendMail`, complete or throw is the `TransportOutcome` input.
 */
module Mailer {
  import opened Wrappers

  /** The environment variables `sendEmail` reads; `None` is an unset variable. */
  datatype SmtpEnv = SmtpEnv(
    host: Option<string>,
    port: Option<string>,
    secure: Option<string>,
    user: Option<string>,
    pass: Option<string>,
    contactTo: Option<string>,
    fromEmail: Option<string>)

  /** The options passed to the transport factory; the numeric port is not modelled. */
  datatype TransportOptions = TransportOptions(host: string, secure: bool, user: string, pass: string)

  /** The addressing of the outgoing mail and the submission it carries. */
  datatype Envelope = Envelope(from: string, to: string, name: string, email: string, message: string)

  /**
    What the mail library does once called: both calls complete, `createTransport` throws (so
    `sendMail` is never reached), or `sendMail` throws.
   */
  datatype TransportOutcome = Accepted | CreateThrew | SendThrew

  /**
    `sendEmail`'s boolean, together with what it handed to the mail library: the options given
    to `createTransport`, and the mail given to `sendMail` if that call was reached.
   */
  datatype SendReport = SendReport(transport: Option<TransportOptions>, envelope: Option<Envelope>, sent: bool)

  /** JavaScript truthiness of an environment variable: set and not empty. */
  predicate Truthy(v: Option<string>) {
    v.Some? && v.value != ""
  }

  /** `a || b` on two environment variables. */
  function Or(a: Option<string>, b: Option<string>): Option<string> {
    if Truthy(a) then a else b
  }

  /** `hasSMTP`: host, user and password are all set and non-empty. */
  predicate Configured(env: SmtpEnv) {
    Truthy(env.host) && Truthy(env.user) && Truthy(env.pass)
  }

  /** `secure: process.env.SMTP_SECURE === "true"`. */
  predicate SecureFlag(env: SmtpEnv) {
    env.secure == Some("true")
  }

  /** The recipient, `CONTACT_TO || SMTP_USER`. */
  function Recipient(env: SmtpEnv): (to: string)
    requires Configured(env)
    ensures to != ""
    ensures Truthy(env.contactTo) ==> to == env.contactTo.value
    ensures !Truthy(env.contactTo) ==> to == env.user.value
  {
    Or(env.contactTo, env.user).value
  }

  /** The sender, `FROM_EMAIL || SMTP_USER`. */
  function Sender(env: SmtpEnv): (from: string)
    requires Configured(env)
    ensures from != ""
    ensures Truthy(env.fromEmail) ==> from == env.fromEmail.value
    ensures !Truthy(env.fromEmail) ==> from == env.user.value
  {
    Or(env.fromEmail, env.user).value
  }

  /** `sendEmail({name, email, message})`. */
  function SendEmail(env: SmtpEnv, name: string, email: string, message: string, outcome: TransportOutcome): (r: SendReport)
    ensures !Configured(env) ==> r.transport.None? && r.envelope.None? && !r.sent
    ensures r.sent <==> Configured(env) && outcome == Accepted
    ensures r.transport.Some? <==> Configured(env)
    ensures r.transport.Some? ==> r.transport.value == TransportOptions(env.host.value, SecureFlag(env), env.user.value, env.pass.value)
    ensures r.envelope.Some? <==> Configured(env) && outcome != CreateThrew
    ensures r.envelope.Some? ==> r.envelope.value == Envelope(Sender(env), Recipient(env), name, email, message)
  {
    if !Configured(env) then
      SendReport(None, None, false)
    else
      var transport := TransportOptions(env.host.value, SecureFlag(env), env.user.value, env.pass.value);
      if outcome == CreateThrew then
        SendReport(Some(transport), None, false)
      else
        var envelope := Envelope(Sender(env), Recipient(env), name, email, message);
        SendReport(Some(transport), Some(envelope), outcome == Accepted)
  }

  /** A fault in either call of the mail library never escapes: it turns into `false`. */
  lemma TransportFaultIsNotSent(env: SmtpEnv, name: string, email: string, message: string, outcome: TransportOutcome)
    requires outcome != Accepted
    ensures !SendEmail(env, name, email, message, outcome).sent
  {
  }

  /** When `createTransport` throws, no recipient is computed and no mail is handed over. */
  lemma CreateFaultHandsOverNothing(env: SmtpEnv, name: string, email: string, message: string)
    ensures SendEmail(env, name, email, message, CreateThrew).envelope.None?
  {
  }

  /**
    `true` means a mail was handed to `sendMail` and accepted: it has a non-empty sender and
    recipient and carries the submission unchanged.
   */
  lemma SentMeansHandedOver(env: SmtpEnv, name: string, email: string, message: string, outcome: TransportOutcome)
    ensures var r := SendEmail(env, name, email, message, outcome);
      r.sent ==> && r.envelope.Some?
                 && r.envelope.value.from != "" && r.envelope.value.to != ""
                 && (r.envelope.value.name, r.envelope.value.email, r.envelope.value.message) == (name, email, message)
  {
  }

  /** Any missing or empty credential disables sending, whatever the other variables hold. */
  lemma MissingCredentialDisablesMail(env: SmtpEnv, name: string, email: string, message: string, outcome: TransportOutcome)
    requires !Truthy(env.host) || !Truthy(env.user) || !Truthy(env.pass)
    ensures SendEmail(env, name, email, message, outcome) == SendReport(None, None, false)
  {
  }

  /** Only the exact string "true" turns TLS on: "TRUE", "1" and the unset variable do not. */
  lemma SecureOnlyForExactTrue(env: SmtpEnv)
    ensures SecureFlag(env) <==> env.secure.Some? && env.secure.value == "true"
    ensures env.secure == Some("TRUE") ==> !SecureFlag(env)
    ensures env.secure == Some("1") ==> !SecureFlag(env)
  {
  }
}

=== FILE: text.dfy ===
/**
  JavaScript string whitespace and `String.prototype.trim`.

  One whitespace predicate serves both `trim` and the regular-expression class `\s`:
  in ECMAScript both are the union of the WhiteSpace and LineTerminator code points.
  Strings are sequences of Unicode scalar values; UTF-16 code-unit counting is not modelled.
 */
module Text {

  /** ECMAScript WhiteSpace (TAB, VT, FF, SP, NBSP, ZWNBSP, the Zs category) and LineTerminator (LF, CR, LS, PS). */
  predicate IsSpace(c: char) {
    || c == '\t' || c == '\n' || c == '\U{B}' || c == '\U{C}' || c == '\r' || c == ' '
    || c == '\U{A0}' || c == '\U{1680}' || ('\U{2000}' <= c <= '\U{200A}')
    || c == '\U{2028}' || c == '\U{2029}' || c == '\U{202F}' || c == '\U{205F}'
    || c == '\U{3000}' || c == '\U{FEFF}'
  }

  predicate AllSpace(s: string) {
    forall k :: 0 <= k < |s| ==> IsSpace(s[k])
  }

  predicate NoSpace(s: string) {
    forall k :: 0 <= k < |s| ==> !IsSpace(s[k])
  }

  /**
    `s[i..j]` is the trimmed form of `s`: everything outside the slice is whitespace and,
    unless the slice is empty, it starts and ends with a non-whitespace character.
    This is the reference definition `Trim` is proved against.
   */
  ghost predicate TrimBounds(s: string, i: int, j: int) {
    && 0 <= i <= j <= |s|
    && AllSpace(s[..i])
    && AllSpace(s[j..])
    && (i < j ==> !IsSpace(s[i]) && !IsSpace(s[j - 1]))
  }

  /** Drops leading whitespace. */
  function TrimStart(s: string): string {
    if |s| > 0 && IsSpace(s[0]) then TrimStart(s[1..]) else s
  }

  /** Drops trailing whitespace. */
  function TrimEnd(s: string): string {
    if |s| > 0 && IsSpace(s[|s| - 1]) then TrimEnd(s[..|s| - 1]) else s
  }

  /** `s.trim()`: leading, then trailing whitespace removed. */
  function Trim(s: string): string {
    TrimEnd(TrimStart(s))
  }

  /** `TrimStart` removes a whitespace prefix, and exactly all of it. */
  lemma {:induction false} TrimStartIsSuffix(s: string)
    ensures |TrimStart(s)| <= |s| && TrimStart(s) == s[|s| - |TrimStart(s)|..]
    ensures AllSpace(s[..|s| - |TrimStart(s)|])
    ensures TrimStart(s) == [] || !IsSpace(TrimStart(s)[0])
    decreases |s|
  {
    if |s| > 0 && IsSpace(s[0]) {
      TrimStartIsSuffix(s[1..]);
      var r := TrimStart(s[1..]);
      assert s[..|s| - |r|] == [s[0]] + s[1..][..|s| - 1 - |r|];
    }
  }

  /** `TrimEnd` removes a whitespace suffix, and exactly all of it. */
  lemma {:induction false} TrimEndIsPrefix(s: string)
    ensures |TrimEnd(s)| <= |s| && TrimEnd(s) == s[..|TrimEnd(s)|]
    ensures AllSpace(s[|TrimEnd(s)|..])
    ensures TrimEnd(s) == [] || !IsSpace(TrimEnd(s)[|TrimEnd(s)| - 1])
    decreases |s|
  {
    if |s| > 0 && IsSpace(s[|s| - 1]) {
      TrimEndIsPrefix(s[..|s| - 1]);
      var r := TrimEnd(s[..|s| - 1]);
      assert s[|r|..] == s[..|s| - 1][|r|..] + [s[|s| - 1]];
    }
  }

  /** `Trim` returns the slice the reference definition `TrimBounds` describes. */
  lemma TrimMeetsReference(s: string) returns (i: int, j: int)
    ensures TrimBounds(s, i, j) && Trim(s) == s[i..j]
  {
    var t := TrimStart(s);
    var r := TrimEnd(t);
    TrimStartIsSuffix(s);
    TrimEndIsPrefix(t);
    i := |s| - |t|;
    j := i + |r|;
    assert t == s[i..];
    assert r == t[..|r|];
    assert r == s[i..j];
    assert s[j..] == t[|r|..];
    if i < j {
      assert s[i] == r[0];
      assert s[j - 1] == r[|r| - 1];
    }
  }

  /** The trimmed form is unique: any slice meeting `TrimBounds` is the same string. */
  lemma TrimBoundsUnique(s: string, i1: int, j1: int, i2: int, j2: int)
    requires TrimBounds(s, i1, j1) && TrimBounds(s, i2, j2)
    ensures s[i1..j1] == s[i2..j2]
  {
  }

  lemma AllSpaceConcat(a: string, b: string)
    requires AllSpace(a) && AllSpace(b)
    ensures AllSpace(a + b)
  {
  }

  /** Any slice meeting the reference definition is what `Trim` returns. */
  lemma TrimIsReference(s: string, i: int, j: int)
    requires TrimBounds(s, i, j)
    ensures Trim(s) == s[i..j]
  {
    var i', j' := TrimMeetsReference(s);
    TrimBoundsUnique(s, i, j, i', j');
  }

  /** Whitespace padding shifts the trimmed slice without changing it. */
  lemma TrimBoundsShift(pre: string, s: string, post: string, i: int, j: int)
    requires AllSpace(pre) && AllSpace(post) && TrimBounds(s, i, j)
    ensures TrimBounds(pre + s + post, |pre| + i, |pre| + j)
    ensures (pre + s + post)[|pre| + i..|pre| + j] == s[i..j]
  {
    var p := pre + s + post;
    var n := |pre|;
    assert p[..n + i] == pre + s[..i];
    assert p[n + j..] == s[j..] + post;
    AllSpaceConcat(pre, s[..i]);
    AllSpaceConcat(s[j..], post);
  }

  /** Two strings whose trimmed slices coincide trim to the same string. */
  lemma TrimSameSlice(p: string, a: int, b: int, s: string, i: int, j: int)
    requires TrimBounds(p, a, b) && TrimBounds(s, i, j) && p[a..b] == s[i..j]
    ensures Trim(p) == Trim(s)
  {
    TrimIsReference(p, a, b);
    TrimIsReference(s, i, j);
  }

  /** Padding a string with whitespace on either side does not change its trimmed form. */
  lemma TrimIgnoresPadding(pre: string, s: string, post: string)
    requires AllSpace(pre) && AllSpace(post)
    ensures Trim(pre + s + post) == Trim(s)
  {
    var i, j := TrimMeetsReference(s);
    TrimBoundsShift(pre, s, post, i, j);
    TrimSameSlice(pre + s + post, |pre| + i, |pre| + j, s, i, j);
  }
}

=== FILE: wrappers.dfy ===
/** Failure-carrying datatypes shared by the client and server models. */
module Wrappers {

  /** An optional value: a JavaScript property that may be absent. */
  datatype Option<+T> = None | Some(value: T)

  /** The outcome of a check that either produces a value or a failure report. */
  datatype Result<+R, +E> = Success(value: R) | Failure(error: E)
}
